=== FILE: README.md ===
# LoRaWAN test application: control state machine

A model of the application-level control loop of `lorawan_test_main.c`. The program transmits "Hi NuttX" periodically over LoRaWAN and reacts to lifecycle events. Those events are the network join result, device-class changes, system-time synchronisation, fragmented file transfer, and the compliance package's remote settings.

All globals the loop touches are collected in one immutable record, `LoraTypes.AppState`:

- `TxPeriodicity`
- the two pending flags
- the clock, multicast-session and file-transfer flags
- the file CRC
- the delivery mode
- the ping-slot periodicity
- the duty-cycle timer, abstracted to `{armed, value}`
- the 242-byte payload buffer
- the 1050-byte reassembly buffer

The requests the program makes of the LoRaMAC handler (`Join`, `RequestClass(c)`, `Send(len, port, mode)`) go into a trace inside the same record. Every handler is a pure function on that record. The LoRaMAC handler's answers are parameters:

- `LmHandlerIsBusy`
- the `LoRaMacQueryTxPossible` status
- the `LmHandlerSend` status
- the `randr` draw
- `Crc32`

Each `CRITICAL_SECTION_BEGIN/END` block is a single atomic step.

Modules, one per component:

- `LoraTypes` (`types.dfy`): constants, the state record, the invariant `Valid`, the static initial state and request counters.
- `Scheduler` (`scheduler.dfy`): timer callback, start-up kick, remote periodicity change.
- `Uplink` (`uplink.dfy`): `PrepareTxFrame` and `UplinkProcess` with its critical section.
- `PendingHandoff` (`handoff.dfy`): arbitrary interleavings of timer firings and uplink passes, with no-loss and no-duplication proofs. `Dispatcher.IterationIsHandoff` ties each loop iteration to these steps.
- `Lifecycle` (`lifecycle.dfy`): join, class change, both system-time variants, fragment completion, compliance callbacks, MAC notification.
- `FragStore` (`fragstore.dfy`): the fragment decoder's write and read callbacks as loops over the buffer, plus range-checked variants.
- `Dispatcher` (`dispatcher.dfy`): start-up in `main`, one iteration of `handle_event_queue`, and a run of many iterations.

Behaviours of the code that the model keeps as they are:

- Under the extended time-sync interface, the clock flag is overwritten with `isSynchronized`, so it can revert to false.
- `OnFragDone` recomputes and overwrites the CRC on every call.
- A non-OK `LoRaMacQueryTxPossible` status is an assertion failure rather than a reportable error, so it is a precondition here.
- A remote periodicity change adopts any non-zero value. Only zero falls back to 40000 ± 5000 ms.
- There is no join-state variable. The only session state is `IsMcSessionStarted`.
- Class codes are compared against the `DeviceClass_t` values 0, 1 and 2, named `ClassACode`, `ClassBCode` and `ClassCCode`.

## Model

| member | source | states |
|---|---|---|
| LoraTypes.DefaultPeriodicity | lorawan_test_main.c:285 | base 40000 plus a draw of randr(-5000, 5000) lies in [35000, 45000] and is never zero |
| LoraTypes.StaticState | lorawan_test_main.c:241-265 | before main the period is 0, the timer is stopped, every flag is clear, the CRC is 0, uplinks are unconfirmed, the ping-slot periodicity is the default, both buffers have their declared sizes and hold zeros, and nothing has been requested |
| LoraTypes.ClassOfCode | lorawan_test_main.c:464-496 | code 1 and only code 1 names class B, code 2 and only code 2 names class C, and every other code, 0 included, leads to class A |
| Scheduler.OnTxTimerEvent | lorawan_test_main.c:401-411 | the timer callback raises the pending flag, re-arms the timer with the current period, changes nothing else and keeps the invariant |
| Scheduler.StartTxProcess | lorawan_test_main.c:359-379 | the timer mode (and unknown modes, which fall through) leaves a frame pending immediately, with the timer armed at the period, and changes nothing else; the event mode changes nothing |
| Scheduler.OnTxPeriodicityChanged | lorawan_test_main.c:604-617 | a non-zero request is adopted exactly; zero yields a period in [35000, 45000]; either way the timer is re-armed with exactly that period and nothing else changes |
| Scheduler.FiringsCollapse | lorawan_test_main.c:401-411 | any k >= 1 firings with no drain in between leave the same state as one firing |
| Scheduler.PeriodChangeKeepsPending | lorawan_test_main.c:604-617 | a period change neither raises nor clears the pending flag |
| Scheduler.FiringAfterChangeUsesNewPeriod | lorawan_test_main.c:604-617 | the firing after a non-zero period change reloads the timer with the new period |
| Uplink.PrepareTxFrame | lorawan_test_main.c:328-357 | busy: state unchanged and no send; idle: "Hi NuttX\0" sits at the front of the payload buffer, the rest of the buffer is unchanged, and exactly one Send(9, 1, current mode) is appended |
| Uplink.MessageFitsBuffer | lorawan_test_main.c:334-338 | the message is 9 bytes including its terminator, within the 242-byte buffer |
| Uplink.TakePending | lorawan_test_main.c:384-388 | the critical section returns the flag's old value and leaves it clear, touching nothing else |
| Uplink.UplinkProcess | lorawan_test_main.c:381-393 | the flag is always clear afterwards; one Send is added exactly when the flag was set and the link idle; with the flag set the result is exactly PrepareTxFrame on the state with the flag cleared; with the flag clear nothing else changes |
| Uplink.SecondUplinkSendsNothing | lorawan_test_main.c:381-393 | a second uplink pass with no firing in between changes nothing |
| PendingHandoff.FlagCharacterized | lorawan_test_main.c:381-411 | after any interleaving, the flag is set iff a firing happened since the last drain, or it was set initially and no drain happened |
| PendingHandoff.NoLostTrigger | lorawan_test_main.c:381-411 | a drain that follows a firing, with no drain in between, makes a transmission attempt |
| PendingHandoff.NoSpuriousTrigger | lorawan_test_main.c:381-411 | a drain with no firing since the previous drain makes no attempt |
| PendingHandoff.NoDuplicateTrigger | lorawan_test_main.c:381-411 | attempts plus a flag still pending never exceed the number of firings, plus one if the flag was set initially |
| PendingHandoff.AttemptsAtMostDrains | lorawan_test_main.c:381-393 | at most one attempt per drain |
| Lifecycle.OnJoinRequest | lorawan_test_main.c:438-450 | a failed join appends exactly one Join; a successful one appends exactly one RequestClass(ClassA); nothing else changes |
| Lifecycle.JoinRetriesOnEveryFailure | lorawan_test_main.c:438-450 | k failures in a row add exactly k joins, no class request and no send |
| Lifecycle.OnClassChange | lorawan_test_main.c:464-496 | code 1 (class B) appends exactly Send(0, 0, Unconfirmed); no other code sends; the multicast session is started iff the code is class B or C; nothing else changes |
| Lifecycle.ClassBSendsOneNotification | lorawan_test_main.c:477-489 | class B adds exactly one send, and it is the last request |
| Lifecycle.OnSysTimeUpdate | lorawan_test_main.c:527-530 | the clock flag equals the reported synchronisation state, whatever it was before |
| Lifecycle.OnSysTimeUpdateLegacy | lorawan_test_main.c:532-535 | the clock flag is set |
| Lifecycle.ClockSyncMonotonicOnlyInLegacy | lorawan_test_main.c:526-536 | the legacy variant keeps the flag set; the extended variant clears it when loss of synchronisation is reported |
| Lifecycle.OnFragDone | lorawan_test_main.c:577-587 | the transfer is marked done and the CRC is that of the first size bytes of the buffer; nothing else changes |
| Lifecycle.FragDoneRecomputes | lorawan_test_main.c:577-587 | a second completion overwrites the CRC with that of the buffer at that time |
| Lifecycle.OnTxFrameCtrlChanged | lorawan_test_main.c:619-622 | later uplinks use the requested delivery mode; nothing else changes |
| Dispatcher.ModeChangeGovernsNextUplink | lorawan_test_main.c:619-622 | after a delivery-mode change the next uplink the preparer sends uses that mode |
| Lifecycle.OnPingSlotPeriodicityChanged | lorawan_test_main.c:624-627 | the stored ping-slot periodicity is the requested one; nothing else changes |
| Lifecycle.OnMacProcessNotify | lorawan_test_main.c:413-416 | the MAC flag is set; nothing else changes |
| FragStore.FragDecoderWrite | lorawan_test_main.c:539-550 | size >= 1050: returns -1 and changes nothing; otherwise returns 0, data[0..size) is at [addr, addr+size) and every other byte is unchanged |
| FragStore.FragDecoderRead | lorawan_test_main.c:552-563 | size >= 1050: returns -1 and the caller's buffer is unchanged; otherwise returns 0, the buffer's first size bytes are buf[addr..addr+size) and the rest are unchanged |
| FragStore.WriteThenRead | lorawan_test_main.c:539-563 | reading back a range just written returns the written data |
| FragStore.SplicedReadsBack | lorawan_test_main.c:545-548 | the written range reads back as the data, and the bytes on either side are the old ones |
| FragStore.GuardAdmitsOutOfRange | lorawan_test_main.c:541-548 | the guard used by FragDecoderWrite and FragDecoderRead accepts address 1040 with 20 bytes, a range that ends past the buffer, and the copy then touches index 1050 |
| FragStore.CheckedStatus | lorawan_test_main.c:541-544 | the corrected guard keeps the C callbacks' limit of fewer than 1050 bytes and adds the range check: it accepts exactly the ranges shorter than 1050 bytes that lie inside the buffer |
| FragStore.FragDecoderWriteChecked | lorawan_test_main.c:539-550 | callable with any address: writes the splice when the range is shorter than 1050 bytes and inside the buffer, otherwise returns -1 and changes nothing |
| FragStore.FragDecoderReadChecked | lorawan_test_main.c:552-563 | callable with any address: reads the range when it is shorter than 1050 bytes and inside the buffer, otherwise returns -1 and leaves the caller's buffer alone |
| Dispatcher.Apply | lorawan_test_main.c:162-199 | running any registered callback keeps the invariant; only OnMacProcessNotify sets the MAC flag, only the timer callback sets the pending flag, and only the decoder's write callback changes the reassembly buffer; a write the corrected guard refuses changes nothing, and an accepted one reads back as the written data with every byte outside its range unchanged |
| Dispatcher.CompletedFileChecksum | lorawan_test_main.c:539-587 | a file stored in a single write from address 0 and then reported complete gets the CRC of exactly the written bytes, and the transfer is marked done |
| Dispatcher.RunCallbacksAppend | lorawan_test_main.c:653-656 | running two callback sequences one after the other gives the same state as running their concatenation |
| Dispatcher.FragmentsStored | lorawan_test_main.c:539-550 | any number of contiguous fragment writes from address 0, each shorter than 1050 bytes and together at most 1050 (the full 21 × 50-byte file included), leave the whole file at the front of the buffer, with the bytes after it as they were |
| Dispatcher.CompletedFragmentedFileChecksum | lorawan_test_main.c:539-587 | a file of up to 1050 bytes, the full-capacity file included, stored fragment by fragment from address 0 and then reported complete gets the CRC of the concatenated fragments, and the transfer is marked done |
| Dispatcher.RunCallbacks | lorawan_test_main.c:653-656 | after a sequence of callbacks, the MAC flag is set iff it was set or a notification is among them, and likewise for the pending flag and timer callbacks |
| Dispatcher.HandleEvent | lorawan_test_main.c:653-674 | the MAC flag ends clear; low power iff it was clear before the critical section; the uplink pass runs only when idle, clears the pending flag and adds one Send exactly when a frame was pending |
| Dispatcher.LowPowerIffNoNotification | lorawan_test_main.c:663-674 | from the second iteration on, the device sleeps exactly when no MAC notification arrived during the iteration |
| Dispatcher.Startup | lorawan_test_main.c:284-317 | after start-up the period is in [35000, 45000], a frame is pending, the timer is armed with the period, the only request is one Join and the invariant holds |
| Dispatcher.JoinRequestsAfterFailures | lorawan_test_main.c:438-450 | after the initial join, k failures give k + 1 join requests and no class request |
| Dispatcher.BusyStepsKeepPending | lorawan_test_main.c:653-674 | iterations in which the link is busy never clear a pending frame |
| Dispatcher.FirstIdleIterationSends | lorawan_test_main.c:359-372 | after start-up and any number of busy iterations, the first idle iteration appends exactly one Send(9, 1, current mode) to the requests of its callbacks, because of the kick |
| Dispatcher.IterationIsHandoff | lorawan_test_main.c:653-674 | one iteration acts on the pending flag as the handoff model's firing (if the timer callback ran) followed by a drain (if the link is idle), and adds exactly as many sends as that model counts attempts |
| Dispatcher.RunLoop | lorawan_test_main.c:637-675 | any number of iterations keep the invariant and end with the MAC flag clear |
| Dispatcher.PeriodNeverZero | lorawan_test_main.c:604-617 | whatever events arrive after start-up, the period is never zero and an armed timer reloads with it |

## Findings

| source | as written | input that shows it | evidently intended | confidence | as-written member | corrected member |
|---|---|---|---|---|---|---|
| lorawan_test_main.c:541-548 | FragDecoderWrite rejects only size >= 1050 and then writes UnfragmentedData[addr + i] for i < size | addr = 1040, size = 20 passes the guard and writes index 1050..1059, past the 1050-byte buffer | keep the size limit and also reject any range with addr + size > 1050 | medium, not executed | FragStore.GuardAdmitsOutOfRange | FragStore.FragDecoderWriteChecked |
| lorawan_test_main.c:554-561 | FragDecoderRead rejects only size >= 1050 and then reads UnfragmentedData[addr + i] for i < size | addr = 1040, size = 20 passes the guard and reads index 1050..1059, past the buffer | keep the size limit and also reject any range with addr + size > 1050 | medium, not executed | FragStore.GuardAdmitsOutOfRange | FragStore.FragDecoderReadChecked |

The as-written `FragStore.FragDecoderWrite` and `FragStore.FragDecoderRead` keep the guard of lorawan_test_main.c. They demand `addr + size <= 1050` of the caller in the non-error branch. The fragmentation decoder is outside this model, so the decoder's own bounds cannot be used to discharge that demand. The event loop's `FragWrite` callback uses the corrected guard, so a write the decoder hands over is either inside the buffer or refused.

## Left out

- The entropy pool (`init_entropy_pool`, `get_tsen_adc`) is left out: it reads hardware ADC registers, uses floating point and sleeps.
- `printf`/`puts` and all `Display*` calls are left out. Callbacks that only print are one `DisplayOnly` callback: `OnFragProgress`, `OnTxData`, `OnRxData`, `OnBeaconStatusChange`, `OnNvmDataChange`, `OnNetworkParametersChange`, `OnMacMcpsRequest` and `OnMacMlmeRequest`.
- The LoRaMAC handler's internals are not modelled: `LmHandlerInit`, `LmHandlerProcess`, `LmHandlerSend`, `LmHandlerSetSystemMaxRxError`, `LmHandlerPackageRegister` and `LoRaMacQueryTxPossible`. Their effects are inputs, namely `LinkStatus` and the callbacks invoked during processing, or trace entries.
- The fatal endless loop on a failed `LmHandlerInit` is left out. `Dispatcher.Startup` models the successful path only.
- `Crc32` is a function parameter rather than the CRC algorithm. Its 16-bit length parameter does not matter, because sizes are at most 1050.
- `randr` is a `jitter` parameter bounded to [-5000, 5000], the range `randr` promises.
- Real time and timer expiry are not modelled. The timer is `{armed, value}`, and a firing is the `TxTimerFired` callback.
- The `ble_npl` event queue is not modelled. One iteration takes its event as a parameter, and the NULL-event branch is not modelled.
- Interrupt preemption is not modelled. Each critical section is one atomic step.
- The `NOTUSED` test-event code is not modelled.
- The `OnFragDone` variant for the old decoder interface (with the LED write) is not modelled. The reassembly buffer is used through the new callback interface only.
- The flags `IsTxFramePending` and `IsMacProcessPending` are `uint8_t` in lorawan_test_main.c. They are modelled as booleans, because only 0 and 1 are ever stored.
- `Uplink.PrepareTxFrame`: the C function asserts that the query status is OK and that the send succeeds. These are preconditions rather than outcomes, and they apply only when the link is idle.
- `FragStore.FragDecoderWrite`: demands `addr + size <= 1050` when size < 1050, a check the C callback never makes (see Findings).
- `FragStore.FragDecoderRead`: demands `addr + size <= 1050` when size < 1050, a check the C callback never makes (see Findings).
- `Lifecycle.OnFragDone`: demands `size <= 1050`, because `Crc32` reads that many bytes of the buffer without a bound check.
- `Dispatcher.HandleEvent`: uses one busy value both for the loop's check and for `PrepareTxFrame`'s own check. The C program calls `LmHandlerIsBusy` twice with nothing in between.
- `Dispatcher.RunLoop`: demands that the query and the send succeed in every idle iteration, even one where no frame is pending.
- `Dispatcher.LowPowerIffNoNotification`: likewise demands that the query and the send succeed in every idle iteration.
- The initial ping-slot periodicity, 7, is the region headers' default. Those headers are not part of this model.
- `Lifecycle.OnPingSlotPeriodicityChanged`: the stored value has no consumer in the model. Its only reader is the LoRaMAC handler's class-B machinery, which is not modelled.
- The decoder's read callback appears in the event loop as no change of state. Its result goes back to the decoder, which is not modelled.

=== FILE: dispatcher.dfy ===
/**
 * Start-up and the event loop: main's assignments before the loop, and one
 * iteration of handle_event_queue (run the dequeued event's handler, let the
 * LoRaMAC handler process, take the pending uplink when the link is idle,
 * then decide between staying awake and low power).
 */
module Dispatcher {
  import opened LoraTypes
  import Scheduler
  import Uplink
  import Lifecycle
  import FragStore
  import PendingHandoff

  /** A handler run during one iteration: the callback of the dequeued event
      (a timer event) or one of the callbacks the LoRaMAC handler and its
      packages invoke while processing. DisplayOnly stands for the callbacks
      that only print (transmit and receive reports, beacon, NVM and network
      parameter changes, MCPS and MLME requests, fragmentation progress).
      FragWrite is the decoder storing a chunk of the file through the
      write callback; the read callback leaves the state as it is. */
  datatype Callback =
    | TxTimerFired
    | MacProcessNotify
    | JoinResult(joinOk: bool)
    | ClassChanged(classCode: nat)
    | SysTimeUpdated(isSynchronized: bool, timeCorrection: int)
    | TxPeriodicityChanged(periodicity: u32, jitter: int)
    | TxFrameCtrlChanged(isTxConfirmed: MsgType)
    | PingSlotPeriodicityChanged(pingSlotPeriodicity: byte)
    | FragWrite(addr: u32, data: seq<byte>)
    | FragDone(status: int, size: nat)
    | DisplayOnly

  /** What the environment must guarantee for a callback: randr stays within
      its bounds, and a completed file is no longer than the buffer. */
  predicate Admissible(cb: Callback) {
    match cb
    case TxPeriodicityChanged(periodicity, jitter) =>
      periodicity == 0 ==> -AppTxDutyCycleRnd <= jitter <= AppTxDutyCycleRnd
    case FragDone(_, size) => size <= UnfragmentedDataSize
    case _ => true
  }

  predicate AllAdmissible(cbs: seq<Callback>) {
    forall i :: 0 <= i < |cbs| ==> Admissible(cbs[i])
  }

  /** Run one callback. Only the MAC process notification raises the MAC
      flag, and only the timer callback raises the transmission flag. */
  function Apply(s: AppState, cb: Callback, crc32: seq<byte> -> u32): (r: AppState)
    requires WellFormed(s) && Admissible(cb)
    ensures WellFormed(r)
    ensures r.isMacProcessPending <==> s.isMacProcessPending || cb == MacProcessNotify
    ensures r.isTxFramePending <==> s.isTxFramePending || cb == TxTimerFired
    ensures !cb.FragWrite? ==> r.unfragmentedData == s.unfragmentedData
    ensures cb.FragWrite? && |cb.data| < UnfragmentedDataSize && cb.addr + |cb.data| <= UnfragmentedDataSize ==>
      r.unfragmentedData[cb.addr..cb.addr + |cb.data|] == cb.data
    ensures cb.FragWrite? ==>
      forall i :: 0 <= i < |s.unfragmentedData| && !FragStore.Touches(cb.addr, |cb.data|, i) ==>
        r.unfragmentedData[i] == s.unfragmentedData[i]
    ensures cb.FragWrite? && FragStore.CheckedStatus(cb.addr, |cb.data|) != 0 ==> r == s
    ensures Valid(s) ==> Valid(r)
  {
    match cb
    case TxTimerFired => Scheduler.OnTxTimerEvent(s)
    case MacProcessNotify => Lifecycle.OnMacProcessNotify(s)
    case JoinResult(joinOk) => Lifecycle.OnJoinRequest(s, joinOk)
    case ClassChanged(classCode) => Lifecycle.OnClassChange(s, classCode)
    case SysTimeUpdated(isSynchronized, timeCorrection) =>
      Lifecycle.OnSysTimeUpdate(s, isSynchronized, timeCorrection)
    case TxPeriodicityChanged(periodicity, jitter) =>
      Scheduler.OnTxPeriodicityChanged(s, periodicity, jitter)
    case TxFrameCtrlChanged(isTxConfirmed) => Lifecycle.OnTxFrameCtrlChanged(s, isTxConfirmed)
    case PingSlotPeriodicityChanged(p) => Lifecycle.OnPingSlotPeriodicityChanged(s, p)
    case FragWrite(addr, data) =>
      if FragStore.CheckedStatus(addr, |data|) == 0
      then
        FragStore.SplicedReadsBack(s.unfragmentedData, addr, data);
        s.(unfragmentedData := FragStore.Spliced(s.unfragmentedData, addr, data))
      else s
    case FragDone(status, size) => Lifecycle.OnFragDone(s, status, size, crc32)
    case DisplayOnly => s
  }

  /** Run callbacks in order. */
  function RunCallbacks(s: AppState, cbs: seq<Callback>, crc32: seq<byte> -> u32): (r: AppState)
    requires WellFormed(s) && AllAdmissible(cbs)
    ensures WellFormed(r)
    ensures r.isMacProcessPending <==> s.isMacProcessPending || MacProcessNotify in cbs
    ensures r.isTxFramePending <==> s.isTxFramePending || TxTimerFired in cbs
    ensures Valid(s) ==> Valid(r)
    decreases |cbs|
  {
    if cbs == [] then s
    else
      assert cbs == [cbs[0]] + cbs[1..];
      RunCallbacks(Apply(s, cbs[0], crc32), cbs[1..], crc32)
  }

  /** What the LoRaMAC handler reports during the uplink pass: LmHandlerIsBusy,
      whether LoRaMacQueryTxPossible answers OK, and whether LmHandlerSend succeeds. */
  datatype LinkStatus = LinkStatus(busy: bool, txPossible: bool, sendOk: bool)

  /** The outcome of one loop iteration: the new state, and whether the
      low-power branch was taken. */
  datatype Iteration = Iteration(state: AppState, lowPower: bool)

  /** One iteration of handle_event_queue. The event's handler and the
      callbacks made during LmHandlerProcess run first; the uplink pass only
      when the link is idle; then, in one critical section, a set MAC flag is
      cleared and keeps the device awake, a clear one lets it sleep. */
  function HandleEvent(s: AppState, ev: Callback, processed: seq<Callback>, link: LinkStatus,
                       crc32: seq<byte> -> u32): (r: Iteration)
    requires WellFormed(s) && Admissible(ev) && AllAdmissible(processed)
    requires !link.busy && (s.isTxFramePending || ev == TxTimerFired || TxTimerFired in processed)
             ==> link.txPossible && link.sendOk
    ensures WellFormed(r.state)
    ensures !r.state.isMacProcessPending
    ensures r.lowPower <==> !s.isMacProcessPending && ev != MacProcessNotify && MacProcessNotify !in processed
    ensures !link.busy ==> !r.state.isTxFramePending
    ensures link.busy ==>
      (r.state.isTxFramePending <==> s.isTxFramePending || ev == TxTimerFired || TxTimerFired in processed)
    ensures var mid := RunCallbacks(s, [ev] + processed, crc32);
      r.state.requests == mid.requests +
        (if !link.busy && mid.isTxFramePending
         then [Send(|Uplink.TxMessage|, Uplink.AppPort, mid.isTxConfirmed)] else [])
    ensures Valid(s) ==> Valid(r.state)
  {
    var cbs := [ev] + processed;
    assert MacProcessNotify in cbs <==> ev == MacProcessNotify || MacProcessNotify in processed;
    assert TxTimerFired in cbs <==> ev == TxTimerFired || TxTimerFired in processed;
    var mid := RunCallbacks(s, cbs, crc32);
    var up := if !link.busy then Uplink.UplinkProcess(mid, link.busy, link.txPossible, link.sendOk) else mid;
    Iteration(up.(isMacProcessPending := false), !up.isMacProcessPending)
  }

  /** Running two callback sequences one after the other is running their concatenation. */
  lemma {:induction false} RunCallbacksAppend(s: AppState, a: seq<Callback>, b: seq<Callback>,
                                              crc32: seq<byte> -> u32)
    requires WellFormed(s) && AllAdmissible(a) && AllAdmissible(b)
    ensures AllAdmissible(a + b)
    ensures RunCallbacks(s, a + b, crc32) == RunCallbacks(RunCallbacks(s, a, crc32), b, crc32)
    decreases |a|
  {
    if a == [] {
      assert a + b == b;
    } else {
      assert (a + b)[0] == a[0] && (a + b)[1..] == a[1..] + b;
      RunCallbacksAppend(Apply(s, a[0], crc32), a[1..], b, crc32);
    }
  }

  /** The file that a sequence of fragments makes up. */
  function Concat(frags: seq<seq<byte>>): seq<byte> {
    if frags == [] then [] else Concat(frags[..|frags| - 1]) + frags[|frags| - 1]
  }

  /** A file the reassembly buffer can hold, split into fragments each of
      which the write callback's size limit lets through. The full file of
      FRAG_MAX_NB fragments of FRAG_MAX_SIZE bytes is one of them. */
  predicate FragmentsFit(frags: seq<seq<byte>>) {
    && |Concat(frags)| <= UnfragmentedDataSize
    && forall i :: 0 <= i < |frags| ==> |frags[i]| < UnfragmentedDataSize
  }

  /** The write callbacks of a decoder that stores the fragments one after
      the other from address 0. */
  function FragmentWrites(frags: seq<seq<byte>>): (cbs: seq<Callback>)
    requires FragmentsFit(frags)
    ensures |cbs| == |frags|
    ensures forall i :: 0 <= i < |frags| ==>
      cbs[i].FragWrite? && cbs[i].addr == |Concat(frags[..i])| && cbs[i].data == frags[i]
    ensures AllAdmissible(cbs)
  {
    if frags == [] then []
    else
      var pre := frags[..|frags| - 1];
      assert forall i :: 0 <= i < |pre| ==> pre[..i] == frags[..i];
      FragmentWrites(pre) + [FragWrite(|Concat(pre)|, frags[|frags| - 1])]
  }

  /** Contiguous fragment writes leave the whole file at the front of the
      reassembly buffer and the bytes after it as they were. */
  lemma {:induction false} FragmentsStored(s: AppState, frags: seq<seq<byte>>, crc32: seq<byte> -> u32)
    requires WellFormed(s) && FragmentsFit(frags)
    ensures var r := RunCallbacks(s, FragmentWrites(frags), crc32);
            && r.unfragmentedData[..|Concat(frags)|] == Concat(frags)
            && r.unfragmentedData[|Concat(frags)|..] == s.unfragmentedData[|Concat(frags)|..]
  {
    if frags != [] {
      var pre := frags[..|frags| - 1];
      var f := frags[|frags| - 1];
      var a := |Concat(pre)|;
      var cb := FragWrite(a, f);
      assert FragmentsFit(pre);
      FragmentsStored(s, pre, crc32);
      RunCallbacksAppend(s, FragmentWrites(pre), [cb], crc32);
      var m := RunCallbacks(s, FragmentWrites(pre), crc32);
      var r := Apply(m, cb, crc32);
      assert [cb][1..] == [];
      assert RunCallbacks(m, [cb], crc32) == r;
      assert r.unfragmentedData[a..a + |f|] == f;
      assert r.unfragmentedData[..a] == m.unfragmentedData[..a] by {
        forall i | 0 <= i < a
          ensures r.unfragmentedData[i] == m.unfragmentedData[i]
        {
          assert !FragStore.Touches(a, |f|, i);
        }
      }
      assert r.unfragmentedData[..a + |f|] == r.unfragmentedData[..a] + r.unfragmentedData[a..a + |f|];
      assert r.unfragmentedData[a + |f|..] == m.unfragmentedData[a + |f|..] by {
        forall i | a + |f| <= i < |m.unfragmentedData|
          ensures r.unfragmentedData[i] == m.unfragmentedData[i]
        {
          assert !FragStore.Touches(a, |f|, i);
        }
      }
      assert m.unfragmentedData[a + |f|..] == m.unfragmentedData[a..][|f|..];
      assert s.unfragmentedData[a + |f|..] == s.unfragmentedData[a..][|f|..];
    }
  }

  /** A file the decoder stores fragment by fragment from address 0 and then
      reports complete has its own checksum recorded. */
  lemma {:induction false} CompletedFragmentedFileChecksum(s: AppState, frags: seq<seq<byte>>, status: int,
                                                           crc32: seq<byte> -> u32)
    requires WellFormed(s) && FragmentsFit(frags)
    ensures var r := RunCallbacks(s, FragmentWrites(frags) + [FragDone(status, |Concat(frags)|)], crc32);
            r.isFileTransferDone && r.fileRxCrc == crc32(Concat(frags))
  {
    var done := FragDone(status, |Concat(frags)|);
    RunCallbacksAppend(s, FragmentWrites(frags), [done], crc32);
    FragmentsStored(s, frags, crc32);
    var m := RunCallbacks(s, FragmentWrites(frags), crc32);
    assert [done][1..] == [];
    assert RunCallbacks(m, [done], crc32) == Apply(m, done, crc32);
  }

  /** A file the decoder stores in a single write from address 0 and then
      reports complete has its own checksum recorded: the completion handler reads back exactly the
      bytes the write callback put into the buffer. */
  lemma {:induction false} CompletedFileChecksum(s: AppState, data: seq<byte>, status: int,
                                                 crc32: seq<byte> -> u32)
    requires WellFormed(s) && |data| < UnfragmentedDataSize
    ensures var r := RunCallbacks(s, [FragWrite(0, data), FragDone(status, |data|)], crc32);
            r.isFileTransferDone && r.fileRxCrc == crc32(data)
  {
    var cbs := [FragWrite(0, data), FragDone(status, |data|)];
    var s1 := Apply(s, cbs[0], crc32);
    assert s1.unfragmentedData[..|data|] == data;
    var s2 := Apply(s1, cbs[1], crc32);
    assert cbs[1..] == [cbs[1]] && cbs[1..][1..] == [];
    assert RunCallbacks(s1, cbs[1..], crc32) == RunCallbacks(s2, [], crc32);
  }

  /** Every iteration ends with the MAC flag clear, so in the next one the
      device may sleep exactly when no MAC process notification arrives. */
  lemma LowPowerIffNoNotification(s: AppState, ev1: Callback, p1: seq<Callback>, l1: LinkStatus,
                                  ev2: Callback, p2: seq<Callback>, l2: LinkStatus,
                                  crc32: seq<byte> -> u32)
    requires WellFormed(s) && Admissible(ev1) && AllAdmissible(p1) && Admissible(ev2) && AllAdmissible(p2)
    requires !l1.busy ==> l1.txPossible && l1.sendOk
    requires !l2.busy ==> l2.txPossible && l2.sendOk
    ensures var first := HandleEvent(s, ev1, p1, l1, crc32);
            (HandleEvent(first.state, ev2, p2, l2, crc32).lowPower <==>
             ev2 != MacProcessNotify && MacProcessNotify !in p2)
  {
  }

  /** main up to the event loop: draw the period, join, and start the
      transmit process, which runs the timer callback once at once. */
  function Startup(jitter: int): (s: AppState)
    requires -AppTxDutyCycleRnd <= jitter <= AppTxDutyCycleRnd
    ensures Valid(s)
    ensures AppTxDutyCycle - AppTxDutyCycleRnd <= s.txPeriodicity <= AppTxDutyCycle + AppTxDutyCycleRnd
    ensures s.isTxFramePending
    ensures s.txTimer == Timer(true, s.txPeriodicity)
    ensures s.requests == [Join]
    ensures !s.isClockSynched && !s.isFileTransferDone && !s.isMcSessionStarted
    ensures !s.isMacProcessPending
    ensures s.isTxConfirmed == Unconfirmed
  {
    var s0 := StaticState().(txPeriodicity := DefaultPeriodicity(jitter));
    var s1 := s0.(isClockSynched := false, isFileTransferDone := false);
    var s2 := s1.(requests := s1.requests + [Join]);
    Scheduler.StartTxProcess(s2, Scheduler.TxOnTimer)
  }

  /** After the initial join, k failed joins in a row give k + 1 join requests
      in all and no class request. */
  lemma {:induction false} JoinRequestsAfterFailures(jitter: int, k: nat)
    requires -AppTxDutyCycleRnd <= jitter <= AppTxDutyCycleRnd
    ensures JoinCount(Lifecycle.JoinFailures(Startup(jitter), k).requests) == k + 1
    ensures ClassRequestCount(Lifecycle.JoinFailures(Startup(jitter), k).requests) == 0
  {
    var s := Startup(jitter);
    Lifecycle.JoinRetriesOnEveryFailure(s, k);
    assert s.requests[..0] == [];
  }

  /** Iterations in which the link is busy never take a pending frame. */
  lemma {:induction false} BusyStepsKeepPending(s: AppState, steps: seq<Step>, crc32: seq<byte> -> u32)
    requires WellFormed(s)
    requires forall i :: 0 <= i < |steps| ==> StepAdmissible(steps[i]) && steps[i].link.busy
    ensures s.isTxFramePending ==> RunLoop(s, steps, crc32).isTxFramePending
  {
    if steps != [] {
      BusyStepsKeepPending(s, steps[..|steps| - 1], crc32);
    }
  }

  /** Because start-up runs the timer callback itself, the first iteration
      in which the link is idle, after any number of busy ones, sends the
      test message, and that send is the last request of the iteration. */
  lemma {:induction false} FirstIdleIterationSends(jitter: int, busySteps: seq<Step>, idle: Step,
                                                   crc32: seq<byte> -> u32)
    requires -AppTxDutyCycleRnd <= jitter <= AppTxDutyCycleRnd
    requires forall i :: 0 <= i < |busySteps| ==> StepAdmissible(busySteps[i]) && busySteps[i].link.busy
    requires StepAdmissible(idle) && !idle.link.busy
    ensures var prev := RunLoop(Startup(jitter), busySteps, crc32);
            var mid := RunCallbacks(prev, [idle.ev] + idle.processed, crc32);
            RunLoop(Startup(jitter), busySteps + [idle], crc32).requests
              == mid.requests + [Send(|Uplink.TxMessage|, Uplink.AppPort, mid.isTxConfirmed)]
    ensures SendCount(RunLoop(Startup(jitter), busySteps + [idle], crc32).requests) >= 1
  {
    var s := Startup(jitter);
    var all := busySteps + [idle];
    assert all[..|all| - 1] == busySteps;
    BusyStepsKeepPending(s, busySteps, crc32);
    var prev := RunLoop(s, busySteps, crc32);
    var mid := RunCallbacks(prev, [idle.ev] + idle.processed, crc32);
    var sent := [Send(|Uplink.TxMessage|, Uplink.AppPort, mid.isTxConfirmed)];
    CountsDistribute(mid.requests, sent);
    assert sent[..0] == [];
  }

  /** A delivery-mode change from the compliance package governs the next
      uplink the preparer sends. */
  lemma ModeChangeGovernsNextUplink(s: AppState, mode: MsgType)
    requires WellFormed(s)
    ensures var r := Uplink.PrepareTxFrame(Lifecycle.OnTxFrameCtrlChanged(s, mode), false, true, true);
            r.requests[|r.requests| - 1] == Send(|Uplink.TxMessage|, Uplink.AppPort, mode)
  {
  }

  /** The inputs of one loop iteration. */
  datatype Step = Step(ev: Callback, processed: seq<Callback>, link: LinkStatus)

  /** Inputs under which the handler's assertions in the uplink pass hold
      whatever is pending. */
  predicate StepAdmissible(st: Step) {
    && Admissible(st.ev) && AllAdmissible(st.processed)
    && (!st.link.busy ==> st.link.txPossible && st.link.sendOk)
  }

  /** The event loop run for a number of iterations. */
  function RunLoop(s: AppState, steps: seq<Step>, crc32: seq<byte> -> u32): (r: AppState)
    requires WellFormed(s)
    requires forall i :: 0 <= i < |steps| ==> StepAdmissible(steps[i])
    ensures WellFormed(r)
    ensures Valid(s) ==> Valid(r)
    ensures steps != [] ==> !r.isMacProcessPending
    decreases |steps|
  {
    if steps == [] then s
    else
      var st := steps[|steps| - 1];
      assert StepAdmissible(st);
      HandleEvent(RunLoop(s, steps[..|steps| - 1], crc32), st.ev, st.processed, st.link, crc32).state
  }

  /** The handoff steps one loop iteration performs: a firing when the timer
      callback runs during it, then a drain when the link is idle. Every other
      callback acts on the flag as PendingHandoff.Other does. */
  function StepOps(st: Step): seq<PendingHandoff.Op> {
    (if TxTimerFired in [st.ev] + st.processed then [PendingHandoff.Fire] else [])
      + (if !st.link.busy then [PendingHandoff.Drain] else [])
  }

  /** One loop iteration is a run of the handoff model: the pending flag ends
      as PendingHandoff.Run leaves it, and the iteration adds as many requests
      to those of its callbacks as PendingHandoff.Attempts counts. */
  lemma IterationIsHandoff(s: AppState, st: Step, crc32: seq<byte> -> u32)
    requires WellFormed(s) && StepAdmissible(st)
    ensures var r := HandleEvent(s, st.ev, st.processed, st.link, crc32).state;
            r.isTxFramePending == PendingHandoff.Run(s, StepOps(st)).isTxFramePending
    ensures var r := HandleEvent(s, st.ev, st.processed, st.link, crc32).state;
            var mid := RunCallbacks(s, [st.ev] + st.processed, crc32);
            |r.requests| == |mid.requests| + PendingHandoff.Attempts(s, StepOps(st))
  {
    var cbs := [st.ev] + st.processed;
    var fired := TxTimerFired in cbs;
    var mid := RunCallbacks(s, cbs, crc32);
    assert mid.isTxFramePending == (s.isTxFramePending || fired);
    var ops := StepOps(st);
    var fire, drain := PendingHandoff.Fire, PendingHandoff.Drain;
    if fired && !st.link.busy {
      assert ops == [fire, drain] && ops[..1] == [fire] && [fire][..0] == [];
      assert PendingHandoff.Run(s, [fire]).isTxFramePending;
      assert PendingHandoff.Attempts(s, [fire]) == 0;
      assert PendingHandoff.Attempts(s, ops) == 1;
    } else if fired {
      assert ops == [fire] && ops[..0] == [];
      assert PendingHandoff.Attempts(s, ops) == 0;
    } else if !st.link.busy {
      assert ops == [drain] && ops[..0] == [];
      assert PendingHandoff.Attempts(s, ops) == if s.isTxFramePending then 1 else 0;
    } else {
      assert ops == [];
    }
  }

  /** Whatever events arrive, from start-up on the period is never zero and
      the running timer reloads with the current period. */
  lemma PeriodNeverZero(jitter: int, steps: seq<Step>, crc32: seq<byte> -> u32)
    requires -AppTxDutyCycleRnd <= jitter <= AppTxDutyCycleRnd
    requires forall i :: 0 <= i < |steps| ==> StepAdmissible(steps[i])
    ensures RunLoop(Startup(jitter), steps, crc32).txPeriodicity != 0
    ensures var r := RunLoop(Startup(jitter), steps, crc32);
            r.txTimer.armed ==> r.txTimer.value == r.txPeriodicity
  {
  }
}

=== FILE: fragstore.dfy ===
/**
 * The file-handling callbacks handed to the fragmentation decoder: copying a
 * range of bytes into, and out of, the 1050-byte buffer that holds the
 * reassembled file.
 */
module FragStore {
  import opened LoraTypes

  /** The buffer with `data` laid over it from `addr` on. */
  function Spliced(buf: seq<byte>, addr: nat, data: seq<byte>): (r: seq<byte>)
    requires addr + |data| <= |buf|
    ensures |r| == |buf|
  {
    buf[..addr] + data + buf[addr + |data|..]
  }

  /** Return code of the guard in both C callbacks of lorawan_test_main.c, which looks at the size alone. */
  function GuardStatus(size: int): (rc: int)
    ensures rc == 0 || rc == -1
    ensures rc == -1 <==> size >= UnfragmentedDataSize
  {
    if size >= UnfragmentedDataSize then -1 else 0
  }

  /** FragDecoderWrite. A size of UnfragmentedDataSize or more is refused with
      -1 and nothing is written; otherwise data[0..size) is copied to
      buf[addr..addr+size) and 0 is returned. The C callback checks only the size,
      never addr + size, so in-range writes are demanded of the caller. */
  method FragDecoderWrite(buf: seq<byte>, addr: u32, data: seq<byte>, size: u32)
    returns (rc: int, buf': seq<byte>)
    requires |buf| == UnfragmentedDataSize
    requires size < UnfragmentedDataSize ==> addr + size <= UnfragmentedDataSize && size <= |data|
    ensures size >= UnfragmentedDataSize ==> rc == -1 && buf' == buf
    ensures size < UnfragmentedDataSize ==> rc == 0 && buf' == Spliced(buf, addr, data[..size])
    ensures |buf'| == |buf|
    ensures size < UnfragmentedDataSize ==> forall i :: 0 <= i < size ==> buf'[addr + i] == data[i]
    ensures forall i :: 0 <= i < |buf| && !(addr <= i < addr + size) ==> buf'[i] == buf[i]
  {
    rc := GuardStatus(size);
    if rc == -1 {
      return rc, buf;
    }
    buf' := buf;
    var i: nat := 0;
    while i < size
      invariant i <= size
      invariant |buf'| == |buf|
      invariant forall k :: 0 <= k < i ==> buf'[addr + k] == data[k]
      invariant forall k :: 0 <= k < |buf| && !(addr <= k < addr + i) ==> buf'[k] == buf[k]
    {
      buf' := buf'[addr + i := data[i]];
      i := i + 1;
    }
    var spliced := Spliced(buf, addr, data[..size]);
    forall k | 0 <= k < |buf|
      ensures buf'[k] == spliced[k]
    {
      if addr <= k < addr + size {
        assert buf'[addr + (k - addr)] == data[k - addr];
      }
    }
  }

  /** FragDecoderRead. A size of UnfragmentedDataSize or more is refused with
      -1 and the caller's buffer is untouched; otherwise buf[addr..addr+size)
      is copied into the first `size` bytes of the caller's buffer and 0 is
      returned. As for the write, addr + size is not checked by the C callback. */
  method FragDecoderRead(buf: seq<byte>, addr: u32, data: seq<byte>, size: u32)
    returns (rc: int, data': seq<byte>)
    requires |buf| == UnfragmentedDataSize
    requires size < UnfragmentedDataSize ==> addr + size <= UnfragmentedDataSize && size <= |data|
    ensures size >= UnfragmentedDataSize ==> rc == -1 && data' == data
    ensures size < UnfragmentedDataSize ==> rc == 0
    ensures |data'| == |data|
    ensures size < UnfragmentedDataSize ==> data'[..size] == buf[addr..addr + size]
    ensures size < UnfragmentedDataSize ==> data'[size..] == data[size..]
  {
    rc := GuardStatus(size);
    if rc == -1 {
      return rc, data;
    }
    data' := data;
    var i: nat := 0;
    while i < size
      invariant i <= size
      invariant |data'| == |data|
      invariant forall k :: 0 <= k < i ==> data'[k] == buf[addr + k]
      invariant forall k :: i <= k < |data| ==> data'[k] == data[k]
    {
      data' := data'[i := buf[addr + i]];
      i := i + 1;
    }
    assert data'[..size] == buf[addr..addr + size];
    assert data'[size..] == data[size..];
  }

  /** Writing a range and reading the same range back returns what was written. */
  method WriteThenRead(buf: seq<byte>, addr: u32, data: seq<byte>, size: u32)
    returns (rcWrite: int, rcRead: int, buf': seq<byte>, back: seq<byte>)
    requires |buf| == UnfragmentedDataSize
    requires size < UnfragmentedDataSize && addr + size <= UnfragmentedDataSize && size <= |data|
    ensures rcWrite == 0 && rcRead == 0
    ensures back == data[..size]
    ensures |buf'| == |buf|
    ensures forall i :: 0 <= i < |buf| && !(addr <= i < addr + size) ==> buf'[i] == buf[i]
  {
    rcWrite, buf' := FragDecoderWrite(buf, addr, data, size);
    rcRead, back := FragDecoderRead(buf', addr, seq(size, _ => 0), size);
  }

  /** The splice is read back unchanged at its position. */
  lemma SplicedReadsBack(buf: seq<byte>, addr: nat, data: seq<byte>)
    requires addr + |data| <= |buf|
    ensures Spliced(buf, addr, data)[addr..addr + |data|] == data
    ensures Spliced(buf, addr, data)[..addr] == buf[..addr]
    ensures Spliced(buf, addr, data)[addr + |data|..] == buf[addr + |data|..]
  {
  }

  /** Whether the copy loop touches index i for a range. */
  predicate Touches(addr: nat, size: nat, i: int) {
    addr <= i < addr + size
  }

  /** The guard shared by the write and read callbacks lets through a range
      that ends past the buffer: address 1040 with 20 bytes passes, although
      it breaks the in-range demand of FragDecoderWrite and FragDecoderRead,
      and either copy loop then touches index 1050. */
  lemma GuardAdmitsOutOfRange()
    ensures GuardStatus(20) == 0
    ensures !(1040 + 20 <= UnfragmentedDataSize)
    ensures Touches(1040, 20, 1050) && 1050 >= UnfragmentedDataSize
  {
  }

  /** The guard the callbacks evidently intend: besides the C callbacks' own
      limit of fewer than UnfragmentedDataSize bytes, refuse any range that
      does not lie inside the buffer. */
  function CheckedStatus(addr: nat, size: nat): (rc: int)
    ensures rc == 0 || rc == -1
    ensures rc == 0 <==> size < UnfragmentedDataSize && addr + size <= UnfragmentedDataSize
    ensures rc == 0 ==> forall i :: Touches(addr, size, i) ==> 0 <= i < UnfragmentedDataSize
  {
    if size >= UnfragmentedDataSize || addr + size > UnfragmentedDataSize then -1 else 0
  }

  /** FragDecoderWrite with the range check: callable with any address. */
  method FragDecoderWriteChecked(buf: seq<byte>, addr: u32, data: seq<byte>, size: u32)
    returns (rc: int, buf': seq<byte>)
    requires |buf| == UnfragmentedDataSize
    requires CheckedStatus(addr, size) == 0 ==> size <= |data|
    ensures rc == CheckedStatus(addr, size)
    ensures rc == -1 ==> buf' == buf
    ensures rc == 0 ==> buf' == Spliced(buf, addr, data[..size])
  {
    rc := CheckedStatus(addr, size);
    if rc == -1 {
      buf' := buf;
    } else {
      rc, buf' := FragDecoderWrite(buf, addr, data, size);
    }
  }

  /** FragDecoderRead with the range check: callable with any address. */
  method FragDecoderReadChecked(buf: seq<byte>, addr: u32, data: seq<byte>, size: u32)
    returns (rc: int, data': seq<byte>)
    requires |buf| == UnfragmentedDataSize
    requires CheckedStatus(addr, size) == 0 ==> size <= |data|
    ensures rc == CheckedStatus(addr, size)
    ensures rc == -1 ==> data' == data
    ensures |data'| == |data|
    ensures rc == 0 ==> data'[..size] == buf[addr..addr + size] && data'[size..] == data[size..]
  {
    rc := CheckedStatus(addr, size);
    if rc == -1 {
      data' := data;
    } else {
      rc, data' := FragDecoderRead(buf, addr, data, size);
    }
  }
}

=== FILE: handoff.dfy ===
/**
 * The pending-transmission flag as a handoff between a producer (the timer
 * callback) and a consumer (the uplink pass of the dispatcher). Each critical
 * section is one atomic step, so a run is a sequence of such steps.
 */
module PendingHandoff {
  import opened LoraTypes
  import Scheduler
  import Uplink

  /** One atomic step: a timer firing, an uplink pass taking the flag, or any
      other handler, none of which touches the flag (Dispatcher.Apply).
      Dispatcher.IterationIsHandoff shows how a loop iteration maps onto them. */
  datatype Op = Fire | Drain | Other

  function ApplyOp(s: AppState, op: Op): AppState {
    match op
    case Fire => Scheduler.OnTxTimerEvent(s)
    case Drain => Uplink.TakePending(s).1
    case Other => s
  }

  /** The state after running the steps in order. */
  function Run(s: AppState, ops: seq<Op>): AppState {
    if ops == [] then s else ApplyOp(Run(s, ops[..|ops| - 1]), ops[|ops| - 1])
  }

  /** Number of uplink passes that found the flag set, that is, number of
      PrepareTxFrame calls made. */
  function Attempts(s: AppState, ops: seq<Op>): nat {
    if ops == [] then 0
    else
      var pre := ops[..|ops| - 1];
      Attempts(s, pre) + (if ops[|ops| - 1] == Drain && Run(s, pre).isTxFramePending then 1 else 0)
  }

  function Fires(ops: seq<Op>): nat {
    if ops == [] then 0 else Fires(ops[..|ops| - 1]) + (if ops[|ops| - 1] == Fire then 1 else 0)
  }

  function Drains(ops: seq<Op>): nat {
    if ops == [] then 0 else Drains(ops[..|ops| - 1]) + (if ops[|ops| - 1] == Drain then 1 else 0)
  }

  /** No uplink pass happens in ops[lo..hi). */
  ghost predicate NoDrainIn(ops: seq<Op>, lo: int, hi: int)
    requires 0 <= lo && hi <= |ops|
  {
    forall k :: lo <= k < hi ==> ops[k] != Drain
  }

  /** Reference description of the flag after ops: some firing has happened
      since the last uplink pass, or it was set at the start and no pass has
      happened at all. */
  ghost predicate FiredSinceLastDrain(p0: bool, ops: seq<Op>) {
    || (exists j :: 0 <= j < |ops| && ops[j] == Fire && NoDrainIn(ops, j + 1, |ops|))
    || (p0 && NoDrainIn(ops, 0, |ops|))
  }

  /** The flag after any run is exactly the reference description. */
  lemma {:induction false} FlagCharacterized(s: AppState, ops: seq<Op>)
    ensures Run(s, ops).isTxFramePending <==> FiredSinceLastDrain(s.isTxFramePending, ops)
  {
    if ops != [] {
      var n := |ops| - 1;
      var pre := ops[..n];
      match ops[n]
      case Fire =>
        assert ops[n] == Fire && NoDrainIn(ops, n + 1, |ops|);
      case Drain =>
        assert !NoDrainIn(ops, 0, |ops|);
        forall j | 0 <= j < |ops| && ops[j] == Fire
          ensures !NoDrainIn(ops, j + 1, |ops|)
        {
          assert ops[n] == Drain;
        }
      case Other =>
        FlagCharacterized(s, pre);
        if FiredSinceLastDrain(s.isTxFramePending, pre) {
          if j :| 0 <= j < |pre| && pre[j] == Fire && NoDrainIn(pre, j + 1, |pre|) {
            assert ops[j] == Fire && NoDrainIn(ops, j + 1, |ops|);
          } else {
            assert NoDrainIn(ops, 0, |ops|);
          }
        } else {
          forall j | 0 <= j < |ops| && ops[j] == Fire
            ensures !NoDrainIn(ops, j + 1, |ops|)
          {
            assert j < n;
            assert !NoDrainIn(pre, j + 1, |pre|);
            var k :| j + 1 <= k < |pre| && pre[k] == Drain;
            assert ops[k] == Drain;
          }
          if s.isTxFramePending {
            var k :| 0 <= k < |pre| && pre[k] == Drain;
            assert ops[k] == Drain;
          }
        }
    }
  }

  /** No lost trigger: an uplink pass that follows a firing, with no pass in
      between, finds the flag set and so makes a transmission attempt. */
  lemma NoLostTrigger(s: AppState, ops: seq<Op>, j: nat, i: nat)
    requires j < i < |ops|
    requires ops[j] == Fire && ops[i] == Drain && NoDrainIn(ops, j + 1, i)
    ensures Attempts(s, ops[..i + 1]) == Attempts(s, ops[..i]) + 1
  {
    var pre := ops[..i];
    assert pre[j] == Fire && NoDrainIn(pre, j + 1, |pre|);
    FlagCharacterized(s, pre);
    assert ops[..i + 1][..i] == pre;
  }

  /** No spurious trigger: an uplink pass with no firing since the previous
      pass (and, for the first pass, no flag set at the start) sends nothing. */
  lemma NoSpuriousTrigger(s: AppState, ops: seq<Op>, i: nat)
    requires i < |ops| && ops[i] == Drain
    requires !FiredSinceLastDrain(s.isTxFramePending, ops[..i])
    ensures Attempts(s, ops[..i + 1]) == Attempts(s, ops[..i])
  {
    FlagCharacterized(s, ops[..i]);
    assert ops[..i + 1][..i] == ops[..i];
  }

  /** No duplicated trigger: every attempt, and a flag still pending at the
      end, is paid for by a distinct firing or by the flag set at the start. */
  lemma {:induction false} NoDuplicateTrigger(s: AppState, ops: seq<Op>)
    ensures Attempts(s, ops) + (if Run(s, ops).isTxFramePending then 1 else 0)
         <= Fires(ops) + (if s.isTxFramePending then 1 else 0)
  {
    if ops != [] {
      NoDuplicateTrigger(s, ops[..|ops| - 1]);
    }
  }

  /** At most one attempt per uplink pass. */
  lemma {:induction false} AttemptsAtMostDrains(s: AppState, ops: seq<Op>)
    ensures Attempts(s, ops) <= Drains(ops)
  {
    if ops != [] {
      AttemptsAtMostDrains(s, ops[..|ops| - 1]);
    }
  }
}

=== FILE: lifecycle.dfy ===
/**
 * The handlers the LoRaMAC handler and its packages call back into: join
 * result, class change, system-time update, fragmented-file completion, the
 * compliance package's remote settings and the MAC process notification.
 */
module Lifecycle {
  import opened LoraTypes

  /** OnJoinRequest: retry the join on failure, otherwise ask for the default class. */
  function OnJoinRequest(s: AppState, joinOk: bool): (r: AppState)
    ensures !joinOk ==> r.requests == s.requests + [Join]
    ensures joinOk ==> r.requests == s.requests + [RequestClass(ClassA)]
    ensures r.(requests := s.requests) == s
  {
    s.(requests := s.requests + [if joinOk then RequestClass(DefaultClass) else Join])
  }

  /** k join failures reported in a row. */
  function JoinFailures(s: AppState, k: nat): AppState {
    if k == 0 then s else OnJoinRequest(JoinFailures(s, k - 1), false)
  }

  /** Each failure issues exactly one new join and nothing else: the retry is
      unconditional and unbounded, and no class is requested meanwhile. */
  lemma {:induction false} JoinRetriesOnEveryFailure(s: AppState, k: nat)
    ensures JoinCount(JoinFailures(s, k).requests) == JoinCount(s.requests) + k
    ensures ClassRequestCount(JoinFailures(s, k).requests) == ClassRequestCount(s.requests)
    ensures SendCount(JoinFailures(s, k).requests) == SendCount(s.requests)
    ensures JoinFailures(s, k).(requests := s.requests) == s
  {
    if k > 0 {
      var prev := JoinFailures(s, k - 1);
      JoinRetriesOnEveryFailure(s, k - 1);
      CountsDistribute(prev.requests, [Join]);
      assert JoinCount([Join]) == 1 by { assert [Join][..0] == []; }
      assert ClassRequestCount([Join]) == 0 by { assert [Join][..0] == []; }
      assert SendCount([Join]) == 0 by { assert [Join][..0] == []; }
    }
  }

  /** OnClassChange, on the raw class code: CLASS_A and any unknown code end
      the multicast session; CLASS_B first sends an empty unconfirmed frame on
      port 0 to tell the server, then starts it; CLASS_C starts it. */
  function OnClassChange(s: AppState, classCode: nat): (r: AppState)
    ensures classCode == ClassBCode ==> r.requests == s.requests + [Send(0, 0, Unconfirmed)]
    ensures classCode != ClassBCode ==> r.requests == s.requests
    ensures r.isMcSessionStarted <==> classCode == ClassBCode || classCode == ClassCCode
    ensures r.(requests := s.requests, isMcSessionStarted := s.isMcSessionStarted) == s
  {
    match ClassOfCode(classCode)
    case ClassB =>
      s.(requests := s.requests + [Send(0, 0, Unconfirmed)], isMcSessionStarted := true)
    case ClassC =>
      s.(isMcSessionStarted := true)
    case ClassA =>
      s.(isMcSessionStarted := false)
  }

  /** Switching to class B emits exactly one uplink, the empty notification,
      and it is the last request made. */
  lemma ClassBSendsOneNotification(s: AppState)
    ensures SendCount(OnClassChange(s, ClassBCode).requests) == SendCount(s.requests) + 1
    ensures OnClassChange(s, ClassBCode).requests[|OnClassChange(s, ClassBCode).requests| - 1]
         == Send(0, 0, Unconfirmed)
  {
    var t := OnClassChange(s, ClassBCode).requests;
    assert t[..|t| - 1] == s.requests;
  }

  /** OnSysTimeUpdate with the extended signature: the flag takes the reported
      synchronisation state, so it can go back to false. */
  function OnSysTimeUpdate(s: AppState, isSynchronized: bool, timeCorrection: int): (r: AppState)
    ensures r.isClockSynched == isSynchronized
    ensures r.(isClockSynched := s.isClockSynched) == s
  {
    s.(isClockSynched := isSynchronized)
  }

  /** OnSysTimeUpdate with the original signature: the flag is set. */
  function OnSysTimeUpdateLegacy(s: AppState): (r: AppState)
    ensures r.isClockSynched
    ensures r.(isClockSynched := s.isClockSynched) == s
  {
    s.(isClockSynched := true)
  }

  /** Under the original signature the clock flag never reverts; under the
      extended one a later update reporting loss of synchronisation clears it. */
  lemma ClockSyncMonotonicOnlyInLegacy(s: AppState, c1: int, c2: int)
    ensures OnSysTimeUpdateLegacy(OnSysTimeUpdateLegacy(s)).isClockSynched
    ensures OnSysTimeUpdate(s, true, c1).isClockSynched
    ensures !OnSysTimeUpdate(OnSysTimeUpdate(s, true, c1), false, c2).isClockSynched
  {
  }

  /** OnFragDone with the new decoder interface: the checksum of the first
      `size` bytes of the reassembled file is recorded and the transfer marked
      done. Crc32 reads `size` bytes of the buffer without any bound check, so
      the model demands that they exist. */
  function OnFragDone(s: AppState, status: int, size: nat, crc32: seq<byte> -> u32): (r: AppState)
    requires size <= |s.unfragmentedData|
    ensures r.isFileTransferDone
    ensures r.fileRxCrc == crc32(s.unfragmentedData[..size])
    ensures r.(isFileTransferDone := s.isFileTransferDone, fileRxCrc := s.fileRxCrc) == s
  {
    s.(fileRxCrc := crc32(s.unfragmentedData[..size]), isFileTransferDone := true)
  }

  /** A second completion is not ignored: it recomputes the checksum over the
      buffer as it is then, overwriting the first one. */
  lemma FragDoneRecomputes(s: AppState, st1: int, n1: nat, newData: seq<byte>,
                           st2: int, n2: nat, crc32: seq<byte> -> u32)
    requires n1 <= |s.unfragmentedData| && n2 <= |newData|
    ensures var first := OnFragDone(s, st1, n1, crc32);
            var second := OnFragDone(first.(unfragmentedData := newData), st2, n2, crc32);
            second.fileRxCrc == crc32(newData[..n2]) && second.isFileTransferDone
  {
  }

  /** OnTxFrameCtrlChanged: the delivery mode of later uplinks. */
  function OnTxFrameCtrlChanged(s: AppState, isTxConfirmed: MsgType): (r: AppState)
    ensures r.isTxConfirmed == isTxConfirmed
    ensures r.(isTxConfirmed := s.isTxConfirmed) == s
  {
    s.(isTxConfirmed := isTxConfirmed)
  }

  /** OnPingSlotPeriodicityChanged: the ping-slot periodicity handed to the handler. */
  function OnPingSlotPeriodicityChanged(s: AppState, pingSlotPeriodicity: byte): (r: AppState)
    ensures r.pingSlotPeriodicity == pingSlotPeriodicity
    ensures r.(pingSlotPeriodicity := s.pingSlotPeriodicity) == s
  {
    s.(pingSlotPeriodicity := pingSlotPeriodicity)
  }

  /** OnMacProcessNotify: the MAC has work to do. */
  function OnMacProcessNotify(s: AppState): (r: AppState)
    ensures r.isMacProcessPending
    ensures r.(isMacProcessPending := s.isMacProcessPending) == s
  {
    s.(isMacProcessPending := true)
  }
}

=== FILE: scheduler.dfy ===
/**
 * The duty-cycle transmit scheduler: the timer callback that raises the
 * pending-transmission flag and re-arms the timer, the start-up "kick", and
 * the remote change of the transmission period.
 */
module Scheduler {
  import opened LoraTypes

  /** LmHandlerTxEvents_t: transmissions driven by the timer or by events. */
  const TxOnTimer: nat := 0
  const TxOnEvent: nat := 1

  /** OnTxTimerEvent: stop the timer, mark a frame pending, reload the timer
      with the current period and start it again. */
  function OnTxTimerEvent(s: AppState): (r: AppState)
    ensures r.isTxFramePending
    ensures r.txTimer.armed && r.txTimer.value == s.txPeriodicity
    ensures r.(isTxFramePending := s.isTxFramePending, txTimer := s.txTimer) == s
    ensures Valid(s) ==> Valid(r)
  {
    s.(isTxFramePending := true, txTimer := Timer(true, s.txPeriodicity))
  }

  /** StartTxProcess: for the timer-driven mode (and any unknown mode, which
      falls through to it) initialise the timer, load the period and run the
      timer callback once; the event-driven mode does nothing. */
  function StartTxProcess(s: AppState, txEvent: nat): (r: AppState)
    ensures txEvent != TxOnEvent ==> r.isTxFramePending && r.txTimer == Timer(true, s.txPeriodicity)
    ensures txEvent != TxOnEvent ==> r.(isTxFramePending := s.isTxFramePending, txTimer := s.txTimer) == s
    ensures txEvent == TxOnEvent ==> r == s
    ensures r.requests == s.requests
    ensures Valid(s) ==> Valid(r)
  {
    if txEvent == TxOnEvent then s
    else OnTxTimerEvent(s.(txTimer := StoppedTimer.(value := s.txPeriodicity)))
  }

  /** OnTxPeriodicityChanged: adopt the requested period, or the randomised
      default when zero is requested, and restart the timer with it. The
      random draw is only made, and so only constrained, in the zero case. */
  function OnTxPeriodicityChanged(s: AppState, periodicity: u32, jitter: int): (r: AppState)
    requires periodicity == 0 ==> -AppTxDutyCycleRnd <= jitter <= AppTxDutyCycleRnd
    ensures periodicity != 0 ==> r.txPeriodicity == periodicity
    ensures periodicity == 0 ==>
      AppTxDutyCycle - AppTxDutyCycleRnd <= r.txPeriodicity <= AppTxDutyCycle + AppTxDutyCycleRnd
    ensures r.txTimer == Timer(true, r.txPeriodicity)
    ensures r.(txPeriodicity := s.txPeriodicity, txTimer := s.txTimer) == s
    ensures WellFormed(s) ==> Valid(r)
  {
    var p := if periodicity == 0 then DefaultPeriodicity(jitter) else periodicity;
    s.(txPeriodicity := p, txTimer := Timer(true, p))
  }

  /** The timer firing k times in a row before anyone looks at the flag. */
  function FireTimes(s: AppState, k: nat): AppState {
    if k == 0 then s else OnTxTimerEvent(FireTimes(s, k - 1))
  }

  /** Several firings leave the same state as one: the flag is a flag, not a
      counter, and the timer is reloaded with the same period each time. */
  lemma {:induction false} FiringsCollapse(s: AppState, k: nat)
    requires k >= 1
    ensures FireTimes(s, k) == OnTxTimerEvent(s)
  {
    if k > 1 {
      FiringsCollapse(s, k - 1);
    }
  }

  /** A period change while a transmission is pending keeps it pending, and a
      period change never raises the flag by itself. */
  lemma PeriodChangeKeepsPending(s: AppState, periodicity: u32, jitter: int)
    requires periodicity == 0 ==> -AppTxDutyCycleRnd <= jitter <= AppTxDutyCycleRnd
    ensures OnTxPeriodicityChanged(s, periodicity, jitter).isTxFramePending == s.isTxFramePending
  {
  }

  /** The next firing after a period change reloads the timer with the new period. */
  lemma FiringAfterChangeUsesNewPeriod(s: AppState, periodicity: u32, jitter: int)
    requires periodicity != 0
    ensures OnTxTimerEvent(OnTxPeriodicityChanged(s, periodicity, jitter)).txTimer == Timer(true, periodicity)
  {
  }
}

=== FILE: types.dfy ===
/**
 * The application-level state of the LoRaWAN test program: every global the
 * control loop reads or writes, gathered into one immutable record, together
 * with the requests the program makes of the LoRaMAC handler.
 */
module LoraTypes {

  type byte = x: int | 0 <= x < 0x100
  type u32 = x: int | 0 <= x < 0x1_0000_0000

  /** Base transmission period, in milliseconds (APP_TX_DUTYCYCLE). */
  const AppTxDutyCycle: int := 40000
  /** Bound of the random delay added to the base period (APP_TX_DUTYCYCLE_RND). */
  const AppTxDutyCycleRnd: int := 5000
  /** Size of the uplink payload buffer (LORAWAN_APP_DATA_BUFFER_MAX_SIZE). */
  const AppDataBufferMaxSize: nat := 242
  /** Size of the buffer receiving a defragmented file: FRAG_MAX_NB * FRAG_MAX_SIZE. */
  const UnfragmentedDataSize: nat := 21 * 50
  /** Ping-slot periodicity the handler parameters start with
      (REGION_COMMON_DEFAULT_PING_SLOT_PERIODICITY in the LoRaMAC region headers). */
  const DefaultPingSlotPeriodicity: byte := 7

  /** Delivery mode of an uplink (LmHandlerMsgTypes_t). */
  datatype MsgType = Unconfirmed | Confirmed

  /** LoRaWAN end-device class (DeviceClass_t). */
  datatype DeviceClass = ClassA | ClassB | ClassC

  /** The numeric codes of DeviceClass_t, as the class-change callback receives them. */
  const ClassACode: nat := 0
  const ClassBCode: nat := 1
  const ClassCCode: nat := 2

  /** The class a raw code names; a code outside the enumeration reads as class A,
      which is where the class-change callback's default branch leads. */
  function ClassOfCode(code: nat): (c: DeviceClass)
    ensures c == ClassB <==> code == ClassBCode
    ensures c == ClassC <==> code == ClassCCode
    ensures code == ClassACode ==> c == ClassA
  {
    if code == ClassBCode then ClassB else if code == ClassCCode then ClassC else ClassA
  }

  /** The class the program asks for once it has joined (LORAWAN_DEFAULT_CLASS). */
  const DefaultClass: DeviceClass := ClassA

  /** A request the application makes of the LoRaMAC handler. */
  datatype Request =
    | Join
    | RequestClass(cls: DeviceClass)
    | Send(len: nat, port: nat, mode: MsgType)

  /** The duty-cycle timer, abstracted to whether it runs and its reload value. */
  datatype Timer = Timer(armed: bool, value: u32)

  /** A timer as TimerInit leaves it: stopped, with no value set. */
  const StoppedTimer: Timer := Timer(false, 0)

  datatype AppState = AppState(
    txPeriodicity: u32,
    isTxFramePending: bool,
    isMacProcessPending: bool,
    isClockSynched: bool,
    isMcSessionStarted: bool,
    isFileTransferDone: bool,
    fileRxCrc: u32,
    isTxConfirmed: MsgType,
    pingSlotPeriodicity: byte,
    txTimer: Timer,
    appDataBuffer: seq<byte>,
    unfragmentedData: seq<byte>,
    requests: seq<Request>
  )

  /** The two static buffers have their declared sizes. */
  predicate WellFormed(s: AppState) {
    && |s.appDataBuffer| == AppDataBufferMaxSize
    && |s.unfragmentedData| == UnfragmentedDataSize
  }

  /** What holds from the end of start-up on: the period is never zero and a
      running timer always reloads with the current period. */
  predicate Valid(s: AppState) {
    && WellFormed(s)
    && s.txPeriodicity != 0
    && (s.txTimer.armed ==> s.txTimer.value == s.txPeriodicity)
  }

  /** The randomised default period: the base plus a draw of
      randr(-AppTxDutyCycleRnd, AppTxDutyCycleRnd). */
  function DefaultPeriodicity(jitter: int): (p: u32)
    requires -AppTxDutyCycleRnd <= jitter <= AppTxDutyCycleRnd
    ensures AppTxDutyCycle - AppTxDutyCycleRnd <= p <= AppTxDutyCycle + AppTxDutyCycleRnd
    ensures p != 0
  {
    AppTxDutyCycle + jitter
  }

  /** The state before main runs: the static initialisers of the globals. */
  function StaticState(): (s: AppState)
    ensures WellFormed(s)
    ensures s.txPeriodicity == 0 && !s.txTimer.armed
    ensures !s.isTxFramePending && !s.isMacProcessPending
    ensures !s.isClockSynched && !s.isMcSessionStarted && !s.isFileTransferDone
    ensures s.fileRxCrc == 0 && s.isTxConfirmed == Unconfirmed
    ensures s.pingSlotPeriodicity == DefaultPingSlotPeriodicity
    ensures forall i :: 0 <= i < |s.appDataBuffer| ==> s.appDataBuffer[i] == 0
    ensures forall i :: 0 <= i < |s.unfragmentedData| ==> s.unfragmentedData[i] == 0
    ensures s.requests == []
  {
    AppState(
      txPeriodicity := 0,
      isTxFramePending := false,
      isMacProcessPending := false,
      isClockSynched := false,
      isMcSessionStarted := false,
      isFileTransferDone := false,
      fileRxCrc := 0,
      isTxConfirmed := Unconfirmed,
      pingSlotPeriodicity := DefaultPingSlotPeriodicity,
      txTimer := StoppedTimer,
      appDataBuffer := seq(AppDataBufferMaxSize, _ => 0),
      unfragmentedData := seq(UnfragmentedDataSize, _ => 0),
      requests := []
    )
  }

  /** Number of join requests in a request trace. */
  function JoinCount(t: seq<Request>): nat {
    if t == [] then 0 else JoinCount(t[..|t| - 1]) + (if t[|t| - 1] == Join then 1 else 0)
  }

  /** Number of class requests in a request trace. */
  function ClassRequestCount(t: seq<Request>): nat {
    if t == [] then 0 else ClassRequestCount(t[..|t| - 1]) + (if t[|t| - 1].RequestClass? then 1 else 0)
  }

  /** Number of uplink sends in a request trace. */
  function SendCount(t: seq<Request>): nat {
    if t == [] then 0 else SendCount(t[..|t| - 1]) + (if t[|t| - 1].Send? then 1 else 0)
  }

  /** Appending requests adds their counts. */
  lemma {:induction false} CountsDistribute(a: seq<Request>, b: seq<Request>)
    ensures JoinCount(a + b) == JoinCount(a) + JoinCount(b)
    ensures ClassRequestCount(a + b) == ClassRequestCount(a) + ClassRequestCount(b)
    ensures SendCount(a + b) == SendCount(a) + SendCount(b)
    decreases |b|
  {
    if b == [] {
      assert a + b == a;
    } else {
      var b' := b[..|b| - 1];
      assert (a + b)[..|a + b| - 1] == a + b';
      CountsDistribute(a, b');
    }
  }
}

=== FILE: uplink.dfy ===
/**
 * The uplink preparer and the pending-flag handoff that drives it.
 */
module Uplink {
  import opened LoraTypes

  /** The bytes of a C string literal (each character below 256), without its terminator. */
  function Ascii(t: string): (r: seq<byte>)
    requires forall i :: 0 <= i < |t| ==> t[i] as int < 0x100
    ensures |r| == |t|
    ensures forall i :: 0 <= i < |t| ==> r[i] == t[i] as int
  {
    seq(|t|, i requires 0 <= i < |t| => t[i] as int)
  }

  /** The array `msg` of PrepareTxFrame: "Hi NuttX" with its terminating zero byte. */
  const TxMessage: seq<byte> := Ascii("Hi NuttX") + [0]

  /** The application port the message is sent on. */
  const AppPort: nat := 1

  /** PrepareTxFrame. When the handler is busy nothing happens. Otherwise the
      message is copied to the front of the payload buffer and sent with the
      current delivery mode. The C function asserts that the handler reports the
      transmission possible and that the send succeeds; those outcomes are
      inputs here and are demanded of the caller when they are consulted. */
  function PrepareTxFrame(s: AppState, busy: bool, queryOk: bool, sendOk: bool): (r: AppState)
    requires WellFormed(s)
    requires !busy ==> queryOk && sendOk
    ensures busy ==> r == s
    ensures !busy ==> r.requests == s.requests + [Send(|TxMessage|, AppPort, s.isTxConfirmed)]
    ensures !busy ==> |r.appDataBuffer| == |s.appDataBuffer|
    ensures !busy ==> forall i :: 0 <= i < |TxMessage| ==> r.appDataBuffer[i] == TxMessage[i]
    ensures !busy ==> forall i :: |TxMessage| <= i < |s.appDataBuffer| ==> r.appDataBuffer[i] == s.appDataBuffer[i]
    ensures r.(appDataBuffer := s.appDataBuffer, requests := s.requests) == s
    ensures Valid(s) ==> Valid(r)
  {
    if busy then s
    else
      assert |TxMessage| <= |s.appDataBuffer|;
      var buffer := TxMessage + s.appDataBuffer[|TxMessage|..];
      s.(appDataBuffer := buffer,
         requests := s.requests + [Send(|TxMessage|, AppPort, s.isTxConfirmed)])
  }

  /** The message fits the payload buffer, as lorawan_test_main.c asserts, and is nine bytes long. */
  lemma MessageFitsBuffer()
    ensures |TxMessage| == 9 <= AppDataBufferMaxSize
    ensures TxMessage[|TxMessage| - 1] == 0
  {
  }

  /** The critical section of UplinkProcess: read the pending flag and clear
      it in one atomic step. */
  function TakePending(s: AppState): (r: (bool, AppState))
    ensures !r.1.isTxFramePending
    ensures r.0 == s.isTxFramePending
    ensures r.1.(isTxFramePending := s.isTxFramePending) == s
  {
    (s.isTxFramePending, s.(isTxFramePending := false))
  }

  /** UplinkProcess: take the pending flag and, if it was set, prepare and
      send a frame. */
  function UplinkProcess(s: AppState, busy: bool, queryOk: bool, sendOk: bool): (r: AppState)
    requires WellFormed(s)
    requires s.isTxFramePending && !busy ==> queryOk && sendOk
    ensures !r.isTxFramePending
    ensures r.requests == s.requests +
      (if s.isTxFramePending && !busy then [Send(|TxMessage|, AppPort, s.isTxConfirmed)] else [])
    ensures s.isTxFramePending ==> r == PrepareTxFrame(s.(isTxFramePending := false), busy, queryOk, sendOk)
    ensures !s.isTxFramePending ==> r == s.(isTxFramePending := false)
    ensures Valid(s) ==> Valid(r)
  {
    var (pending, s') := TakePending(s);
    if pending then PrepareTxFrame(s', busy, queryOk, sendOk) else s'
  }

  /** An uplink pass that finds nothing pending is a no-op, so running it twice
      sends at most once. */
  lemma SecondUplinkSendsNothing(s: AppState, busy: bool, queryOk: bool, sendOk: bool)
    requires WellFormed(s)
    requires s.isTxFramePending && !busy ==> queryOk && sendOk
    ensures var r := UplinkProcess(s, busy, queryOk, sendOk);
            UplinkProcess(r, busy, queryOk, sendOk) == r
  {
    var r := UplinkProcess(s, busy, queryOk, sendOk);
    assert r.(isTxFramePending := false) == r;
  }
}
